=== FILE: README.md ===
# Keyboard stress-test simulator: a Dafny model

The program types phrases into whatever control has focus, at a configured rate. A left click starts or resumes typing, a right click pauses it, and Esc ends the program.

A phrase is a C++ `std::string`, a sequence of bytes. The model writes it as a Dafny `string` in which every `char` stands for one byte (one C++ `char`). So lengths, per-character intervals and keystrokes all count bytes. A two-byte UTF-8 letter is two `char`s and two keystrokes, as in the source. Two threads share a few flags. The monitor thread polls the mouse buttons and the Esc key. The input thread types one randomly chosen phrase per cycle, spreading its characters over the cycle.

This project models the sequential decisions inside those threads as pure functions over an immutable state record:

- `Activation` holds the shared flag record, the `start()` and `stop()` transitions, and one iteration of the monitor loop. It also holds a run of that loop over a sequence of polls. The phase table (Idle, Armed, Active, Paused) is an independent reference. It is taken from the program's own usage text at main.cpp:28-31: left click to start or resume, right click to pause.
- `PhraseStore` holds the phrase list operations and the random pick. The pick takes the drawn index as a parameter.
- `Emission` holds one iteration of the input thread: its branch choice, the per-character interval, the end-of-cycle padding, and the character loop that stops at the first pause or exit it sees.
- `Arguments` holds the command-line parser, a parser-free description of the token lists it accepts, and the exit-code choice `main` makes on the parse.
- `Session` holds the simulator record and `main`'s sequence of steps: configure, start, poll until the monitor loop ends, tear down. Configuring sets only the phrases and the delay and leaves the flags at their initial value, so the program functions start the flag record from that initial value. It also holds the thread-handle defect under "## Findings" and its correction.

## Model

| member | source | states |
|---|---|---|
| Activation.Start | keyboard_simulator.cpp:56-69 | start is a no-op when already running; otherwise the simulator is running, not exiting, inactive and unpaused, remembers the given button samples and has a monitor thread; the state invariant (paused implies active, exiting implies not running) is kept |
| Activation.Stop | keyboard_simulator.cpp:74-89 | stop is a no-op when not running; otherwise running, active and paused are cleared and both threads are joined; shouldExit and the button samples are kept; the invariant is kept |
| Activation.MonitorStep | keyboard_simulator.cpp:136-181 | with Esc, only shouldExit (set) and running (cleared) change and the loop guard fails; without Esc, running and shouldExit are untouched and both current samples become the last ones; afterwards an input thread exists exactly when one already did or this poll brought a completed left click while inactive; activation is never undone; the invariant is kept |
| Activation.LeftClickActivates | keyboard_simulator.cpp:146-161 | a completed left click (pressed bit 0x8000 set before, clear now) from the inactive state makes the simulator active with an input thread, unpaused unless a right click came in the same poll |
| Activation.LeftClickResumes | keyboard_simulator.cpp:162-166 | a completed left click while paused clears paused and changes nothing else, so no second input thread is spawned |
| Activation.LeftClickWhileActiveIsIgnored | keyboard_simulator.cpp:151-167 | a left click while active and not paused changes nothing but the remembered samples |
| Activation.RightClickPauses | keyboard_simulator.cpp:170-178 | a completed right click sets paused exactly when active and not paused, and is otherwise a no-op |
| Activation.BothClicksFromInactive | keyboard_simulator.cpp:146-178 | both edges in one poll from the inactive state leave the simulator active and paused |
| Activation.StartIdempotent | keyboard_simulator.cpp:56-59 | a second start without a stop in between changes nothing |
| Activation.StopIdempotent | keyboard_simulator.cpp:74-77 | a second stop changes nothing |
| Activation.MonitorStepFollowsPhaseTable | keyboard_simulator.cpp:145-178 | under the loop guard, a poll moves the Idle/Armed/Active/Paused phase as the usage text at main.cpp:28-31 says: left edge first (Armed or Paused to Active), then right edge (Active to Paused) |
| Activation.RunMonitor | keyboard_simulator.cpp:136-183 | the loop does nothing when its guard fails at the start; a run that starts under the guard is still going or was ended by Esc, not running and exiting; the monitor thread handle is untouched and a spawned input thread stays spawned |
| Activation.RunMonitorKeepsInvariant | keyboard_simulator.cpp:136-183 | every run of the monitor loop keeps the state invariant: paused implies active, exiting implies not running |
| Activation.SpawnsAtMostOnce | keyboard_simulator.cpp:159-161 | however many left clicks a run sees, the guarded construction of the input thread happens at most once, never while an input thread is joinable, and exactly when the run ends with a joinable input thread it did not start with |
| Activation.EscEndsRun | keyboard_simulator.cpp:136-143 | an Esc poll ends the monitor loop at once in the exiting state; polls after it are never read |
| PhraseStore.SetInputText | keyboard_simulator.cpp:23-26 | the store holds exactly the one given phrase |
| PhraseStore.AddInputText | keyboard_simulator.cpp:28-30 | the store grows by one, keeps every earlier phrase in place and ends with the new one |
| PhraseStore.ClearInputTexts | keyboard_simulator.cpp:32-34 | the store is empty |
| PhraseStore.RandomInputText | keyboard_simulator.cpp:36-44 | an empty store gives the empty phrase; otherwise the phrase at the drawn index, which is a phrase of the store |
| PhraseStore.PickAfterSet | keyboard_simulator.cpp:23-43 | after setInputText every pick returns the phrase that was set |
| PhraseStore.PickAfterClear | keyboard_simulator.cpp:32-38 | after clearInputTexts every pick returns the empty phrase |
| PhraseStore.PickSupport | keyboard_simulator.cpp:41-43 | the phrases a pick can return, over all indices in range, are exactly the phrases in the store |
| PhraseStore.PickAfterAdd | keyboard_simulator.cpp:28-43 | adding a phrase leaves every earlier pick unchanged and makes the new phrase the pick at the last index |
| PhraseStore.LoadTexts | main.cpp:120-124 | adding the configured phrases one by one to a new simulator leaves exactly those phrases, in order |
| Emission.Decide | keyboard_simulator.cpp:189-249 | the iteration waits while paused; otherwise it paces when the store is non-empty and the delay positive, waits when the store is empty, and types uncapped when the delay is zero or negative |
| Emission.CharInterval | keyboard_simulator.cpp:204-209 | the interval is at least 1; when the phrase fits the delay it is the largest whole interval whose multiple by the length stays within the delay; when it does not fit, it is 1 |
| Emission.RemainingSleep | keyboard_simulator.cpp:235-238 | the padding is never negative, is zero exactly when the elapsed time already reached the delay, and otherwise brings elapsed time up to exactly the delay |
| Emission.FirstHalt | keyboard_simulator.cpp:215-219 | the index of the first observation with paused, not running or exiting, or the number of observations if none |
| Emission.GapCount | keyboard_simulator.cpp:224-227 | one sleep follows every typed character except the phrase's last |
| Emission.TypeCharacters | keyboard_simulator.cpp:215-228 | the loop types a prefix of the phrase, in order, up to the first halting observation; a complete phrase of length n has n-1 sleeps, one aborted before index i has i |
| Emission.PacedCycle | keyboard_simulator.cpp:198-238 | a paced cycle types the phrase up to the first halting observation; its sleeps are one character interval per gap, then the padding when it is positive; an empty phrase types nothing and sleeps nothing |
| Emission.UncappedCycle | keyboard_simulator.cpp:128-133 | uncapped typing types the whole phrase with one 10 ms sleep after each character, the last one included |
| Emission.Iteration | keyboard_simulator.cpp:187-249 | one loop iteration takes the branch Decide picks; it types a prefix of the picked phrase; the waits are 50 ms paused and 100 ms empty; a paced iteration is the paced cycle over the picked phrase, with its character intervals and padding; uncapped mode types the whole phrase with one 10 ms sleep after each character |
| Emission.UninterruptedPacedSleeps | keyboard_simulator.cpp:215-238 | an uninterrupted paced cycle types the whole phrase; its sleeps are exactly n-1 character intervals followed by the padding when it is positive |
| Emission.PacedCycleLength | keyboard_simulator.cpp:204-238 | the sleeps of an uninterrupted paced cycle add up to n-1 character intervals plus the padding; the lemma also collects that elapsed time plus padding reaches both the delay and the inter-character sleeps, which follow from RemainingSleep and the elapsed-time hypothesis |
| Emission.ShortPhraseFitsCycle | keyboard_simulator.cpp:204-209 | when the phrase fits the delay, the inter-character sleeps stay below the delay |
| Emission.LongPhraseOverrunsCycle | keyboard_simulator.cpp:206-238 | when the phrase is longer than the delay, the interval is 1 ms, the sleeps alone reach the delay and no padding is added |
| Emission.TwoPhrasesScenario | keyboard_simulator.cpp:194-238 | phrases "ab" and "cd" with a 100 ms cycle: the picked phrase is typed with 50 ms between characters and 50 ms of padding after 50 ms of typing |
| Arguments.Parse | main.cpp:34-68 | an accepted parse keeps the starting phrases as a prefix; help first fails with the help reason; a missing-value failure names a value-taking option and an unknown-option failure names an unrecognised token |
| Arguments.ParseAcceptsExactlyWellFormed | main.cpp:35-67 | the parse succeeds exactly when the tokens are an even count with a value-taking option at every even position |
| Arguments.ParseAppendsTexts | main.cpp:40-42 | on success the phrases are the starting ones followed by every -t/--text value, in order |
| Arguments.ParseLastWins | main.cpp:47-57 | on success the frequency and delay are the conversions of the last -f and -d values, or the starting values when absent |
| Arguments.ParseSplits | main.cpp:35-65 | a well-formed prefix is consumed pair by pair and parsing continues from the configuration it left |
| Arguments.HelpShortCircuits | main.cpp:38-39 | -h or --help in option position fails the parse whatever follows |
| Arguments.MissingValueFails | main.cpp:41-60 | a value-taking option as the last token fails the parse |
| Arguments.UnknownTokenFails | main.cpp:61-64 | an unrecognised token in option position fails the parse whatever follows |
| Arguments.ValueIsAlwaysConsumed | main.cpp:42-56 | the token after -t, -f or -d is that option's value even when it looks like an option |
| Arguments.MainLaunch | main.cpp:92-100 | main exits with status 1 exactly when the parse fails; otherwise it goes on with "test" followed by the -t values, the last -f value converted (or 10.0) as the frequency and the last -d value converted (or 100) as the delay |
| Session.SetInputDelay | keyboard_simulator.cpp:52-54 | only the delay changes |
| Session.Configure | main.cpp:120-125 | the new simulator holds the given phrases and delay and is idle |
| Session.StopJoined | keyboard_simulator.cpp:74-89 | corrected stop: the flags change exactly as stop changes them, and afterwards no thread handle is joinable |
| Session.TeardownAsWritten | keyboard_simulator.cpp:19-21 | as written, after the main loop, main's stop() and the destructor's stop(): the process returns 0 when the simulator was still running; when it was not running, it terminates exactly when a thread handle is still joinable |
| Session.ProgramAsWritten | main.cpp:97-147 | as written, the process returns 1 exactly on a parse failure, keeps running exactly while the monitor loop does, and never returns 0 |
| Session.Teardown | keyboard_simulator.cpp:19-21 | with the corrected stop, the teardown after the main loop always returns status 0 |
| Session.RunEndsOnlyThroughEsc | keyboard_simulator.cpp:136-143 | from an armed simulator the monitor loop either keeps going or ended through Esc, not running and exiting, with the monitor thread handle still joinable |
| Session.Program | main.cpp:97-147 | with the corrected teardown, the process returns 1 exactly on a parse failure, keeps running exactly while the monitor loop does, returns 0 once it ended, and never terminates abnormally |
| Session.EndedSessionTerminatesAsWritten | keyboard_simulator.cpp:74-77 | as written, every session whose monitor loop ended calls std::terminate instead of returning 0 |
| Session.EscAtFirstPollTerminates | main.cpp:141-147 | no arguments and Esc at the first poll: the as-written program terminates abnormally |
| Session.CancellationStopsBothLoops | keyboard_simulator.cpp:136-143 | after Esc or a stop, neither loop goes round again and the character loop stops before its next character |
| Session.InvariantThroughSession | keyboard_simulator.cpp:56-89 | the state invariant (paused implies active, exiting implies not running) holds at construction, after start, along the monitor loop and after teardown |

## Left out

- Threads, `std::atomic`, `join` and real sleeping are not modelled. Each monitor iteration is one atomic step. Sleeps are returned as durations. The typing time `elapsed` is an input.
- The interleaving race where `main` sees `shouldExit` between the two writes at keyboard_simulator.cpp:139-140 is not modelled. Depending on whether line 140 has run when `stop()` reads `running` at line 75, `stop()` may join the threads or return early. The model's state invariant describes the state between transitions only. The source passes through states that break it: between the two writes at lines 139-140 (`shouldExit` set, `running` still true); inside `stop()` between lines 80 and 81 (paused but not active); and inside `start()` between lines 61 and 64 (running while `shouldExit` is still set, and paused but not active after line 62).
- Win32 calls are not modelled: `GetAsyncKeyState`, `SendInput`, the console set-up and `SetConsoleCtrlHandler`. Button samples and the Esc state are the fields of a `Poll`. Injected characters are the `typed` string.
- All console output, `printUsage`, and the getters `isRunning`, `isActive` and `shouldExit` are not modelled. The getters read fields of the flag record.
- The unused helpers `isMouseLeftButtonClicked` and `isMouseRightButtonClicked` are not modelled.
- PhraseStore.RandomInputText does not model the uniformity of `std::mt19937` or `uniform_int_distribution`. The drawn index is a parameter.
- `setInputFrequency` is not modelled. `main`'s `delay = static_cast<int>(1000.0 / frequency)` is not modelled either. Both are floating point, and the code truncates rather than rounds. For the same reason, the model leaves out that the default frequency of 10 overrides any `-d`.
- Arguments.Parse treats `std::stod` and `std::stoi` as parameters. Their exceptions are not modelled. A double is modelled as a `real`.
- Arguments.Parse drops the values filled in before a failure, because `main` discards them.
- Emission.CharInterval does not model the `size_t`-to-`int` cast of the phrase length. The cast matters only for phrases longer than 2^31 characters.
- Emission.PacedCycleLength takes as a hypothesis that the measured elapsed time covers the inter-character sleeps, because the clock is not modelled.
- Emission.LongPhraseOverrunsCycle takes the same hypothesis about the elapsed time, and its "no padding" conclusion rests on it.
- Emission.RemainingSleep does not model the `int` cast of the elapsed milliseconds.
- Activation.Start does not model the `std::terminate` that assigning a new thread to a still-joinable monitor thread handle causes. That happens when starting again after Esc.
- The Linux/X11 fields and the display mutex in keyboard_simulator.h:94-99 are not modelled. No implementation of them is shown.

Facts about the code that a reader might expect otherwise:
- `stop()` leaves `shouldExit` unchanged. An explicit stop does not mark the simulator as exiting.
- After Esc the process does not return 0; see "## Findings".
- `main` derives the delay from the frequency by truncating `1000.0 / frequency`, not by rounding.

## Findings

| source | as written | input that shows it | evidently intended | confidence | as-written member | corrected member |
|---|---|---|---|---|---|---|
| keyboard_simulator.cpp:74-77 | `stop()` returns before joining when `running` is already false; Esc clears `running` itself (lines 139-140), so `main`'s `stop()` and the destructor's `stop()` both return early and the joinable `std::thread` members are destroyed, which calls `std::terminate` | no arguments, any start, Esc pressed at the first poll | both threads are joined on shutdown and the process returns 0 | high; not executed | Session.EndedSessionTerminatesAsWritten | Session.Program |

=== FILE: activation.dfy ===
/**
 The activation state machine of the keyboard simulator: the shared flag
 record, the `start`/`stop` transitions and one iteration of the monitor
 loop that turns mouse-button edges and the Esc key into state changes.

 Threads are not modelled. A thread handle's `joinable()` is the boolean
 `monitorSpawned` / `inputSpawned`; spawning sets it, joining clears it.
 */
module Activation {

  /** A raw button sample as returned by the platform (a 32-bit DWORD). */
  type Sample = bv32

  /** The bit of a sample that says "the button is down right now". */
  const PressedBit: bv32 := 0x8000

  /** The shared state of one simulator. */
  datatype Flags = Flags(
    running: bool,
    active: bool,
    paused: bool,
    shouldExit: bool,
    lastLeft: Sample,
    lastRight: Sample,
    monitorSpawned: bool,
    inputSpawned: bool)

  /** What one poll of the monitor loop observes. */
  datatype Poll = Poll(esc: bool, left: Sample, right: Sample)

  /** The state of a freshly constructed simulator. */
  const Initial: Flags := Flags(false, false, false, false, 0, 0, false, false)

  predicate Pressed(s: Sample) {
    (s & PressedBit) != 0
  }

  /** A completed click: pressed at the previous poll, released at this one. */
  predicate CompletedClick(last: Sample, cur: Sample) {
    Pressed(last) && !Pressed(cur)
  }

  /** The state invariant every transition keeps: one can only be paused
      while active, and an exiting simulator is no longer running. */
  predicate Invariant(f: Flags) {
    && (f.paused ==> f.active)
    && (f.shouldExit ==> !f.running)
  }

  /** The guard of the monitor loop. */
  predicate MonitorContinues(f: Flags) {
    f.running && !f.shouldExit
  }

  /** `start()`: a no-op when already running; otherwise arms the simulator,
      records the current button samples and spawns the monitor loop. */
  function Start(f: Flags, left: Sample, right: Sample): (r: Flags)
    ensures f.running ==> r == f
    ensures !f.running ==> MonitorContinues(r) && !r.active && !r.paused
    ensures !f.running ==> r.lastLeft == left && r.lastRight == right
    ensures !f.running ==> r.monitorSpawned && r.inputSpawned == f.inputSpawned
    ensures Invariant(f) ==> Invariant(r)
  {
    if f.running then f
    else f.(running := true, active := false, paused := false, shouldExit := false,
            lastLeft := left, lastRight := right, monitorSpawned := true)
  }

  /** `stop()` as written: a no-op when not running; otherwise clears the
      activation flags and joins both worker threads. `shouldExit` is kept. */
  function Stop(f: Flags): (r: Flags)
    ensures !f.running ==> r == f
    ensures f.running ==> !r.running && !r.active && !r.paused
    ensures f.running ==> !r.monitorSpawned && !r.inputSpawned
    ensures r.shouldExit == f.shouldExit
    ensures r.lastLeft == f.lastLeft && r.lastRight == f.lastRight
    ensures Invariant(f) ==> Invariant(r)
  {
    if !f.running then f
    else f.(running := false, active := false, paused := false,
            monitorSpawned := false, inputSpawned := false)
  }

  /** The left-button half of a monitor iteration. */
  function ApplyLeft(f: Flags, click: bool): Flags {
    if !click then f
    else if !f.active then f.(active := true, paused := false, inputSpawned := true)
    else if f.paused then f.(paused := false)
    else f
  }

  /** The right-button half of a monitor iteration. */
  function ApplyRight(f: Flags, click: bool): Flags {
    if click && f.active && !f.paused then f.(paused := true) else f
  }

  /** One iteration of the monitor loop body. Esc ends the loop without
      touching anything but `shouldExit` and `running`; otherwise the left
      edge is applied, then the right edge, and both samples are remembered. */
  function MonitorStep(f: Flags, p: Poll): (r: Flags)
    ensures p.esc ==> r.shouldExit && !r.running && !MonitorContinues(r)
    ensures p.esc ==> r.active == f.active && r.paused == f.paused
    ensures p.esc ==> r.lastLeft == f.lastLeft && r.lastRight == f.lastRight
    ensures p.esc ==> r.monitorSpawned == f.monitorSpawned && r.inputSpawned == f.inputSpawned
    ensures !p.esc ==> r.lastLeft == p.left && r.lastRight == p.right
    ensures !p.esc ==> r.running == f.running && r.shouldExit == f.shouldExit
    ensures r.monitorSpawned == f.monitorSpawned
    ensures r.inputSpawned == (f.inputSpawned || (!p.esc && CompletedClick(f.lastLeft, p.left) && !f.active))
    ensures f.active ==> r.active
    ensures Invariant(f) ==> Invariant(r)
  {
    if p.esc then f.(shouldExit := true, running := false)
    else
      var afterLeft := ApplyLeft(f, CompletedClick(f.lastLeft, p.left));
      var afterRight := ApplyRight(afterLeft, CompletedClick(f.lastRight, p.right));
      afterRight.(lastLeft := p.left, lastRight := p.right)
  }

  /** A completed left click from the inactive state activates and unpauses;
      afterwards an input thread exists (spawned now unless one already was). */
  lemma LeftClickActivates(f: Flags, p: Poll)
    requires !p.esc && CompletedClick(f.lastLeft, p.left) && !f.active
    ensures MonitorStep(f, p).active
    ensures MonitorStep(f, p).inputSpawned
    ensures !CompletedClick(f.lastRight, p.right) ==> !MonitorStep(f, p).paused
  {
  }

  /** A completed left click while paused resumes without spawning. */
  lemma LeftClickResumes(f: Flags, p: Poll)
    requires !p.esc && CompletedClick(f.lastLeft, p.left) && f.active && f.paused
    requires !CompletedClick(f.lastRight, p.right)
    ensures MonitorStep(f, p) == f.(paused := false, lastLeft := p.left, lastRight := p.right)
  {
  }

  /** Any left sample while active and not paused, with no right click,
      changes nothing but the remembered samples. */
  lemma LeftClickWhileActiveIsIgnored(f: Flags, p: Poll)
    requires !p.esc && f.active && !f.paused && !CompletedClick(f.lastRight, p.right)
    ensures MonitorStep(f, p) == f.(lastLeft := p.left, lastRight := p.right)
  {
  }

  /** A completed right click pauses exactly when active and not paused. */
  lemma RightClickPauses(f: Flags, p: Poll)
    requires !p.esc && !CompletedClick(f.lastLeft, p.left) && CompletedClick(f.lastRight, p.right)
    ensures MonitorStep(f, p).paused <==> f.paused || f.active
    ensures MonitorStep(f, p).active == f.active
    ensures !(f.active && !f.paused) ==> MonitorStep(f, p) == f.(lastLeft := p.left, lastRight := p.right)
  {
  }

  /** Both edges in one poll from the inactive state: active and paused at once. */
  lemma BothClicksFromInactive(f: Flags, p: Poll)
    requires !p.esc && !f.active
    requires CompletedClick(f.lastLeft, p.left) && CompletedClick(f.lastRight, p.right)
    ensures MonitorStep(f, p).active && MonitorStep(f, p).paused
  {
  }

  /** `start` twice without an intervening `stop` is the same as once. */
  lemma StartIdempotent(f: Flags, l1: Sample, r1: Sample, l2: Sample, r2: Sample)
    ensures Start(Start(f, l1, r1), l2, r2) == Start(f, l1, r1)
  {
  }

  /** `stop` twice is the same as once. */
  lemma StopIdempotent(f: Flags)
    ensures Stop(Stop(f)) == Stop(f)
  {
  }

  /** The phases of the activation state machine, as the program's usage
      text (main.cpp:28-31) describes them: `Idle` before `start`, `Armed`
      waiting for the first left click, `Active` typing, `Paused` after a
      right click. Exiting is the flag `shouldExit`, kept apart from the phase. */
  datatype Phase = Idle | Armed | Active | Paused

  function PhaseOf(f: Flags): Phase {
    if !f.running then Idle
    else if !f.active then Armed
    else if f.paused then Paused
    else Active
  }

  /** A left click starts typing, or resumes it after a pause (main.cpp:29-30). */
  function LeftTransition(ph: Phase): Phase {
    match ph
    case Armed => Active
    case Paused => Active
    case _ => ph
  }

  /** A right click pauses typing (main.cpp:30). */
  function RightTransition(ph: Phase): Phase {
    if ph == Active then Paused else ph
  }

  /** Whatever the phase, a poll under the loop guard moves it as the usage
      text's transitions say: the left edge first, then the right edge. */
  lemma MonitorStepFollowsPhaseTable(f: Flags, p: Poll)
    requires Invariant(f) && MonitorContinues(f) && !p.esc
    ensures
      var l := CompletedClick(f.lastLeft, p.left);
      var r := CompletedClick(f.lastRight, p.right);
      var afterLeft := if l then LeftTransition(PhaseOf(f)) else PhaseOf(f);
      PhaseOf(MonitorStep(f, p)) == (if r then RightTransition(afterLeft) else afterLeft)
  {
  }

  /** The monitor loop: apply polls while the loop guard holds. A run that
      started under the guard is either still going or was ended by Esc;
      nothing else in the loop clears `running` or sets `shouldExit`. */
  function RunMonitor(f: Flags, polls: seq<Poll>): (r: Flags)
    ensures !MonitorContinues(f) ==> r == f
    ensures MonitorContinues(f) ==> MonitorContinues(r) || (!r.running && r.shouldExit)
    ensures r.monitorSpawned == f.monitorSpawned
    ensures f.inputSpawned ==> r.inputSpawned
    decreases |polls|
  {
    if polls == [] || !MonitorContinues(f) then f
    else RunMonitor(MonitorStep(f, polls[0]), polls[1..])
  }

  /** Whether a poll makes the loop construct an input thread: a completed
      left click while inactive, and no joinable input thread yet. */
  predicate SpawnsInput(f: Flags, p: Poll) {
    !p.esc && CompletedClick(f.lastLeft, p.left) && !f.active && !f.inputSpawned
  }

  /** How many times the run constructs an input thread. */
  function SpawnCount(f: Flags, polls: seq<Poll>): nat
    decreases |polls|
  {
    if polls == [] || !MonitorContinues(f) then 0
    else (if SpawnsInput(f, polls[0]) then 1 else 0) + SpawnCount(MonitorStep(f, polls[0]), polls[1..])
  }

  /** Any run of the monitor loop keeps the invariant. */
  lemma {:induction false} RunMonitorKeepsInvariant(f: Flags, polls: seq<Poll>)
    requires Invariant(f)
    ensures Invariant(RunMonitor(f, polls))
    decreases |polls|
  {
    if polls != [] && MonitorContinues(f) {
      RunMonitorKeepsInvariant(MonitorStep(f, polls[0]), polls[1..]);
    }
  }

  /** Any number of left clicks constructs at most one input thread, none
      when one is already joinable, and one exactly when the run ends with a
      joinable input thread it did not start with. */
  lemma {:induction false} SpawnsAtMostOnce(f: Flags, polls: seq<Poll>)
    ensures SpawnCount(f, polls) <= 1
    ensures f.inputSpawned ==> SpawnCount(f, polls) == 0
    ensures SpawnCount(f, polls) == 1 <==> !f.inputSpawned && RunMonitor(f, polls).inputSpawned
    decreases |polls|
  {
    if polls != [] && MonitorContinues(f) {
      var g := MonitorStep(f, polls[0]);
      SpawnsAtMostOnce(g, polls[1..]);
    }
  }

  /** An Esc poll ends the loop at once: once the guard holds up to the Esc
      poll, the run ends terminating, and later polls are never read. */
  lemma {:induction false} EscEndsRun(f: Flags, before: seq<Poll>, p: Poll, after: seq<Poll>)
    requires p.esc
    requires MonitorContinues(RunMonitor(f, before))
    ensures RunMonitor(f, before + [p] + after) == MonitorStep(RunMonitor(f, before), p)
    ensures RunMonitor(f, before + [p] + after).shouldExit
    ensures !RunMonitor(f, before + [p] + after).running
    decreases |before|
  {
    if before == [] {
      assert before + [p] + after == [p] + after;
      assert ([p] + after)[1..] == after;
      var g := MonitorStep(f, p);
      assert !MonitorContinues(g);
      if after != [] {
        assert RunMonitor(g, after) == g;
      }
    } else {
      assert MonitorContinues(f);
      assert (before + [p] + after)[0] == before[0];
      assert (before + [p] + after)[1..] == before[1..] + [p] + after;
      EscEndsRun(MonitorStep(f, before[0]), before[1..], p, after);
    }
  }
}

=== FILE: arguments.dfy ===
/**
 The command-line parser of the program and the exit-code choice `main`
 makes on its result.

 The string-to-number conversions are parameters: `toReal` stands for
 `std::stod` and `toInt` for `std::stoi`. The tokens are the arguments after
 the program name.
 */
module Arguments {

  /** The range of a C++ `int`. */
  type Int32 = x: int | -0x8000_0000 <= x < 0x8000_0000

  /** What the parser fills in: the phrases, the frequency and the delay. */
  datatype Config = Config(texts: seq<string>, frequency: real, delay: Int32)

  /** The values `main` starts from before parsing. */
  const Defaults: Config := Config(["test"], 10.0, 100)

  /** The three options that take a value. */
  datatype Opt = Text | Frequency | Delay

  /** How the parser reads one token in option position. */
  datatype Token = HelpFlag | ValueFlag(opt: Opt) | Unknown

  function Classify(arg: string): Token {
    if arg == "-h" || arg == "--help" then HelpFlag
    else if arg == "-t" || arg == "--text" then ValueFlag(Text)
    else if arg == "-f" || arg == "--frequency" then ValueFlag(Frequency)
    else if arg == "-d" || arg == "--delay" then ValueFlag(Delay)
    else Unknown
  }

  /** Why the parser said no. */
  datatype Failure = HelpRequested | MissingValue(option: string) | UnknownOption(token: string)

  datatype Outcome = Accepted(config: Config) | Rejected(reason: Failure)

  /** The effect of one option with its value. */
  function Apply(cfg: Config, o: Opt, value: string, toReal: string -> real, toInt: string -> Int32): Config {
    match o
    case Text => cfg.(texts := cfg.texts + [value])
    case Frequency => cfg.(frequency := toReal(value))
    case Delay => cfg.(delay := toInt(value))
  }

  /** `parseArguments`: left to right, each option consumes the next token
      as its value whatever it looks like; help, an unknown token or an
      option with no token after it stops the parse with a failure. */
  function Parse(args: seq<string>, cfg: Config, toReal: string -> real, toInt: string -> Int32): (r: Outcome)
    ensures r.Accepted? ==> |r.config.texts| >= |cfg.texts| && r.config.texts[..|cfg.texts|] == cfg.texts
    ensures args != [] && Classify(args[0]) == HelpFlag ==> r == Rejected(HelpRequested)
    ensures r.Rejected? && r.reason.MissingValue? ==> Classify(r.reason.option).ValueFlag?
    ensures r.Rejected? && r.reason.UnknownOption? ==> Classify(r.reason.token) == Unknown
    decreases |args|
  {
    if args == [] then Accepted(cfg)
    else
      match Classify(args[0])
      case HelpFlag => Rejected(HelpRequested)
      case Unknown => Rejected(UnknownOption(args[0]))
      case ValueFlag(o) =>
        if |args| < 2 then Rejected(MissingValue(args[0]))
        else Parse(args[2..], Apply(cfg, o, args[1], toReal, toInt), toReal, toInt)
  }

  /** The token lists the parser accepts, described without the parser: an
      even number of tokens with a value-taking option at every even position. */
  predicate WellFormed(args: seq<string>) {
    |args| % 2 == 0 && forall k :: 0 <= k < |args| && k % 2 == 0 ==> Classify(args[k]).ValueFlag?
  }

  /** The values given to option `o`, in the order they appear. */
  function Values(args: seq<string>, o: Opt): seq<string>
    decreases |args|
  {
    if |args| < 2 then []
    else (if Classify(args[0]) == ValueFlag(o) then [args[1]] else []) + Values(args[2..], o)
  }

  lemma WellFormedTail(args: seq<string>)
    requires |args| >= 2
    ensures WellFormed(args) <==> Classify(args[0]).ValueFlag? && WellFormed(args[2..])
  {
    if Classify(args[0]).ValueFlag? && WellFormed(args[2..]) {
      forall k | 0 <= k < |args| && k % 2 == 0
        ensures Classify(args[k]).ValueFlag?
      {
        if k >= 2 {
          assert args[k] == args[2..][k - 2];
        }
      }
    }
    if WellFormed(args) {
      forall k | 0 <= k < |args[2..]| && k % 2 == 0
        ensures Classify(args[2..][k]).ValueFlag?
      {
        assert args[2..][k] == args[k + 2];
      }
    }
  }

  /** The parser accepts exactly the well-formed token lists. */
  lemma {:induction false} ParseAcceptsExactlyWellFormed(args: seq<string>, cfg: Config, toReal: string -> real, toInt: string -> Int32)
    ensures Parse(args, cfg, toReal, toInt).Accepted? <==> WellFormed(args)
    decreases |args|
  {
    if |args| >= 2 {
      WellFormedTail(args);
      match Classify(args[0])
      case ValueFlag(o) =>
        ParseAcceptsExactlyWellFormed(args[2..], Apply(cfg, o, args[1], toReal, toInt), toReal, toInt);
      case _ =>
    } else if |args| == 1 {
      assert !WellFormed(args);
    }
  }

  /** On acceptance, the phrases are the ones the parse began with followed
      by every `-t` value in order. */
  lemma {:induction false} ParseAppendsTexts(args: seq<string>, cfg: Config, toReal: string -> real, toInt: string -> Int32)
    requires Parse(args, cfg, toReal, toInt).Accepted?
    ensures Parse(args, cfg, toReal, toInt).config.texts == cfg.texts + Values(args, Text)
    decreases |args|
  {
    if args != [] {
      var o := Classify(args[0]).opt;
      var cfg' := Apply(cfg, o, args[1], toReal, toInt);
      ParseAppendsTexts(args[2..], cfg', toReal, toInt);
      if o == Text {
        assert cfg.texts + Values(args, Text) == cfg.texts + [args[1]] + Values(args[2..], Text);
      }
    }
  }

  /** The value a repeated option ends with: the last one given, or the
      starting value when the option does not occur. */
  function LastOr<T>(values: seq<string>, convert: string -> T, start: T): T {
    if values == [] then start else convert(values[|values| - 1])
  }

  /** On acceptance, the last `-f` and the last `-d` win. */
  lemma {:induction false} ParseLastWins(args: seq<string>, cfg: Config, toReal: string -> real, toInt: string -> Int32)
    requires Parse(args, cfg, toReal, toInt).Accepted?
    ensures Parse(args, cfg, toReal, toInt).config.frequency == LastOr(Values(args, Frequency), toReal, cfg.frequency)
    ensures Parse(args, cfg, toReal, toInt).config.delay == LastOr(Values(args, Delay), toInt, cfg.delay)
    decreases |args|
  {
    if args != [] {
      var o := Classify(args[0]).opt;
      var cfg' := Apply(cfg, o, args[1], toReal, toInt);
      ParseLastWins(args[2..], cfg', toReal, toInt);
      var rest := args[2..];
      if o == Frequency {
        var vs := Values(rest, Frequency);
        assert Values(args, Frequency) == [args[1]] + vs;
        if vs != [] {
          assert ([args[1]] + vs)[|vs|] == vs[|vs| - 1];
        }
      } else if o == Delay {
        var vs := Values(rest, Delay);
        assert Values(args, Delay) == [args[1]] + vs;
        if vs != [] {
          assert ([args[1]] + vs)[|vs|] == vs[|vs| - 1];
        }
      }
    }
  }

  /** A well-formed prefix is consumed pair by pair: parsing a longer list
      continues from where the prefix left the configuration. */
  lemma {:induction false} ParseSplits(pre: seq<string>, rest: seq<string>, cfg: Config, toReal: string -> real, toInt: string -> Int32)
    requires WellFormed(pre)
    ensures Parse(pre, cfg, toReal, toInt).Accepted?
    ensures Parse(pre + rest, cfg, toReal, toInt) == Parse(rest, Parse(pre, cfg, toReal, toInt).config, toReal, toInt)
    decreases |pre|
  {
    ParseAcceptsExactlyWellFormed(pre, cfg, toReal, toInt);
    if pre == [] {
      assert pre + rest == rest;
    } else {
      WellFormedTail(pre);
      var o := Classify(pre[0]).opt;
      var cfg' := Apply(cfg, o, pre[1], toReal, toInt);
      assert (pre + rest)[0] == pre[0] && (pre + rest)[1] == pre[1];
      assert (pre + rest)[2..] == pre[2..] + rest;
      ParseSplits(pre[2..], rest, cfg', toReal, toInt);
    }
  }

  /** `-h` or `--help` in option position fails the parse, whatever follows. */
  lemma HelpShortCircuits(pre: seq<string>, h: string, rest: seq<string>, cfg: Config, toReal: string -> real, toInt: string -> Int32)
    requires WellFormed(pre) && (h == "-h" || h == "--help")
    ensures Parse(pre + [h] + rest, cfg, toReal, toInt) == Rejected(HelpRequested)
  {
    ParseSplits(pre, [h] + rest, cfg, toReal, toInt);
    assert pre + [h] + rest == pre + ([h] + rest);
  }

  /** An option that needs a value, given as the last token, fails the parse. */
  lemma MissingValueFails(pre: seq<string>, opt: string, cfg: Config, toReal: string -> real, toInt: string -> Int32)
    requires WellFormed(pre) && Classify(opt).ValueFlag?
    ensures Parse(pre + [opt], cfg, toReal, toInt) == Rejected(MissingValue(opt))
  {
    ParseSplits(pre, [opt], cfg, toReal, toInt);
  }

  /** An unrecognised token in option position fails the parse, whatever follows. */
  lemma UnknownTokenFails(pre: seq<string>, u: string, rest: seq<string>, cfg: Config, toReal: string -> real, toInt: string -> Int32)
    requires WellFormed(pre) && Classify(u) == Unknown
    ensures Parse(pre + [u] + rest, cfg, toReal, toInt) == Rejected(UnknownOption(u))
  {
    ParseSplits(pre, [u] + rest, cfg, toReal, toInt);
    assert pre + [u] + rest == pre + ([u] + rest);
  }

  /** The token after an option is its value even when it looks like an
      option itself: `-t -h` adds the phrase "-h" instead of asking for help. */
  lemma ValueIsAlwaysConsumed(pre: seq<string>, opt: string, v: string, rest: seq<string>, cfg: Config, toReal: string -> real, toInt: string -> Int32)
    requires WellFormed(pre) && Classify(opt).ValueFlag?
    ensures Parse(pre, cfg, toReal, toInt).Accepted?
    ensures
      var mid := Apply(Parse(pre, cfg, toReal, toInt).config, Classify(opt).opt, v, toReal, toInt);
      Parse(pre + [opt, v] + rest, cfg, toReal, toInt) == Parse(rest, mid, toReal, toInt)
  {
    ParseSplits(pre, [opt, v] + rest, cfg, toReal, toInt);
    assert pre + [opt, v] + rest == pre + ([opt, v] + rest);
    assert ([opt, v] + rest)[2..] == rest;
  }

  /** What `main` does with the parse: exit with status 1 before any
      simulator exists, or go on with the parsed configuration. */
  datatype Launch = Exit(code: int) | Run(config: Config)

  function MainLaunch(args: seq<string>, toReal: string -> real, toInt: string -> Int32): (r: Launch)
    ensures r.Exit? <==> !WellFormed(args)
    ensures r.Exit? ==> r.code == 1
    ensures r.Run? ==> r.config.texts == ["test"] + Values(args, Text)
    ensures r.Run? ==> r.config.frequency == LastOr(Values(args, Frequency), toReal, 10.0)
    ensures r.Run? ==> r.config.delay == LastOr(Values(args, Delay), toInt, 100)
  {
    ParseAcceptsExactlyWellFormed(args, Defaults, toReal, toInt);
    match Parse(args, Defaults, toReal, toInt)
    case Rejected(_) => Exit(1)
    case Accepted(cfg) =>
      ParseAppendsTexts(args, Defaults, toReal, toInt);
      ParseLastWins(args, Defaults, toReal, toInt);
      Run(cfg)
  }
}

=== FILE: emission.dfy ===
/**
 One iteration of the emission loop (the input thread): which branch it
 takes, the per-character interval and end-of-cycle padding it computes, and
 which characters it types before a pause or exit interrupts it.

 Time is not modelled as a clock. The sleeps an iteration asks for are
 returned as a sequence of millisecond durations; the wall-clock time the
 characters took (`elapsed`) is an input. The flags the character loop reads
 before each character are an input sequence of observations.
 */
module Emission {
  import opened Activation
  import opened PhraseStore

  /** Sleep while paused, in milliseconds. */
  const PausedWaitMs: nat := 50
  /** Sleep while the store is empty, in milliseconds. */
  const EmptyWaitMs: nat := 100
  /** Sleep after every character in uncapped mode, in milliseconds. */
  const UncappedGapMs: nat := 10

  /** The guard of the emission loop. */
  predicate EmissionContinues(f: Flags) {
    f.running && f.active && !f.shouldExit
  }

  /** The check made before each character: stop typing this phrase. */
  predicate Halts(f: Flags) {
    f.paused || !f.running || f.shouldExit
  }

  /** The four ways one iteration of the emission loop can go. */
  datatype Branch = PausedWait | Paced | EmptyWait | Uncapped

  /** The branch order of the loop body: a pause wins, then pacing, then the
      empty-store wait, and uncapped typing takes what is left. */
  function Decide(paused: bool, store: Store, delay: int): (b: Branch)
    ensures b == PausedWait <==> paused
    ensures b == Paced <==> !paused && store != [] && delay > 0
    ensures b == EmptyWait <==> !paused && store == []
    ensures b == Uncapped <==> !paused && store != [] && delay <= 0
  {
    if paused then PausedWait
    else if store != [] && delay > 0 then Paced
    else if store == [] then EmptyWait
    else Uncapped
  }

  /** The per-character interval: the cycle spread evenly over the phrase,
      but never below one millisecond. Both operands are positive, so the
      source's truncating `int` division is the floor taken here. */
  function CharInterval(delay: int, len: nat): (r: int)
    requires delay > 0 && len > 0
    ensures r >= 1
    ensures len <= delay ==> r * len <= delay < (r + 1) * len
    ensures len > delay ==> r == 1
  {
    var q := delay / len;
    if q < 1 then 1 else q
  }

  /** The end-of-cycle padding: the part of the cycle not yet used, or
      nothing when the characters already took the whole cycle. */
  function RemainingSleep(delay: int, elapsed: nat): (r: nat)
    ensures elapsed + r >= delay
    ensures r == 0 <==> elapsed >= delay
    ensures r > 0 ==> elapsed + r == delay
  {
    if delay - elapsed > 0 then delay - elapsed else 0
  }

  /** The index of the first observation that stops the typing, or the
      number of observations when none does. */
  function FirstHalt(obs: seq<Flags>): (k: nat)
    ensures k <= |obs|
    ensures forall j :: 0 <= j < k ==> !Halts(obs[j])
    ensures k < |obs| ==> Halts(obs[k])
  {
    if obs == [] || Halts(obs[0]) then 0 else 1 + FirstHalt(obs[1..])
  }

  /** How many inter-character sleeps follow `typed` characters of a phrase
      of `len`: one after every typed character except the phrase's last. */
  function GapCount(len: nat, typed: nat): (n: nat)
    requires typed <= len
    ensures typed < len ==> n == typed
    ensures 0 < typed == len ==> n + 1 == len
    ensures typed == 0 ==> n == 0
  {
    if 0 < typed == len then typed - 1 else typed
  }

  /** The character loop of a paced cycle, as the source writes it: before
      each character, look at the flags; stop at the first halting
      observation; type the character; sleep unless it was the last one. */
  method TypeCharacters(text: string, obs: seq<Flags>) returns (typed: string, gaps: nat)
    requires |obs| == |text|
    ensures typed <= text
    ensures |typed| == FirstHalt(obs)
    ensures forall j :: 0 <= j < |typed| ==> !Halts(obs[j])
    ensures |typed| < |text| ==> Halts(obs[|typed|])
    ensures gaps == GapCount(|text|, |typed|)
  {
    typed := [];
    gaps := 0;
    var i := 0;
    while i < |text|
      invariant 0 <= i <= |text|
      invariant typed == text[..i]
      invariant forall j :: 0 <= j < i ==> !Halts(obs[j])
      invariant gaps == GapCount(|text|, i)
    {
      if Halts(obs[i]) {
        break;
      }
      typed := typed + [text[i]];
      if i < |text| - 1 {
        gaps := gaps + 1;
      }
      i := i + 1;
    }
  }

  /** `n` copies of a sleep of `ms`. */
  function Repeat(n: nat, ms: nat): (r: seq<nat>)
    ensures |r| == n
    ensures forall i :: 0 <= i < n ==> r[i] == ms
  {
    if n == 0 then [] else Repeat(n - 1, ms) + [ms]
  }

  function Sum(s: seq<nat>): nat {
    if s == [] then 0 else s[0] + Sum(s[1..])
  }

  /** What one iteration does: the branch it took, the characters it typed,
      and the sleeps it asked for, in order. */
  datatype Cycle = Cycle(branch: Branch, typed: string, sleeps: seq<nat>)

  /** A paced cycle over the picked phrase. An empty phrase does nothing at
      all, not even sleep. */
  function PacedCycle(text: string, delay: int, obs: seq<Flags>, elapsed: nat): (c: Cycle)
    requires delay > 0 && |obs| == |text|
    ensures c.branch == Paced
    ensures c.typed <= text
    ensures |c.typed| < |text| ==> Halts(obs[|c.typed|])
    ensures forall j :: 0 <= j < |c.typed| ==> !Halts(obs[j])
    ensures c.typed == text[..FirstHalt(obs)]
    ensures text == [] ==> c.sleeps == []
    ensures text != [] ==>
      var gaps := GapCount(|text|, |c.typed|);
      var pad := RemainingSleep(delay, elapsed);
      && |c.sleeps| == gaps + (if pad > 0 then 1 else 0)
      && (forall i :: 0 <= i < gaps ==> c.sleeps[i] == CharInterval(delay, |text|))
      && (pad > 0 ==> c.sleeps[gaps] == pad)
  {
    if text == [] then Cycle(Paced, [], [])
    else
      var k := FirstHalt(obs);
      var rem := RemainingSleep(delay, elapsed);
      Cycle(Paced, text[..k],
            Repeat(GapCount(|text|, k), CharInterval(delay, |text|)) + (if rem > 0 then [rem] else []))
  }

  /** Uncapped typing of the picked phrase: every character, each followed by
      a short sleep, with no look at the flags. */
  function UncappedCycle(text: string): (c: Cycle)
    ensures c.branch == Uncapped && c.typed == text
    ensures |c.sleeps| == |text|
    ensures forall i :: 0 <= i < |text| ==> c.sleeps[i] == UncappedGapMs
  {
    Cycle(Uncapped, text, Repeat(|text|, UncappedGapMs))
  }

  /** One iteration of the emission loop body, with `index` the random pick
      and `obs` the flags seen before each character of a paced phrase. */
  function Iteration(f: Flags, store: Store, delay: int, index: nat, obs: seq<Flags>, elapsed: nat): (c: Cycle)
    requires store != [] ==> index < |store|
    requires !f.paused && store != [] && delay > 0 ==> |obs| == |store[index]|
    ensures c.branch == Decide(f.paused, store, delay)
    ensures c.typed <= RandomInputText(store, index)
    ensures c.branch == PausedWait ==> c.typed == [] && c.sleeps == [PausedWaitMs]
    ensures c.branch == EmptyWait ==> c.typed == [] && c.sleeps == [EmptyWaitMs]
    ensures c.branch == Paced ==> c.typed == store[index][..FirstHalt(obs)]
    ensures c.branch == Paced ==> c == PacedCycle(store[index], delay, obs, elapsed)
    ensures c.branch == Uncapped ==> c.typed == store[index]
    ensures c.branch == Uncapped ==>
      |c.sleeps| == |c.typed| && forall i :: 0 <= i < |c.typed| ==> c.sleeps[i] == UncappedGapMs
  {
    match Decide(f.paused, store, delay)
    case PausedWait => Cycle(PausedWait, [], [PausedWaitMs])
    case EmptyWait => Cycle(EmptyWait, [], [EmptyWaitMs])
    case Paced => PacedCycle(RandomInputText(store, index), delay, obs, elapsed)
    case Uncapped => UncappedCycle(RandomInputText(store, index))
  }

  lemma {:induction false} SumAppend(a: seq<nat>, b: seq<nat>)
    ensures Sum(a + b) == Sum(a) + Sum(b)
    decreases |a|
  {
    if a == [] {
      assert a + b == b;
    } else {
      assert (a + b)[1..] == a[1..] + b;
      SumAppend(a[1..], b);
    }
  }

  /** The total of `n` sleeps of `ms`. */
  lemma {:induction false} SumRepeat(n: nat, ms: nat)
    ensures Sum(Repeat(n, ms)) == n * ms
  {
    if n > 0 {
      SumRepeat(n - 1, ms);
      SumAppend(Repeat(n - 1, ms), [ms]);
      assert Sum([ms]) == ms;
    }
  }

  /** An uninterrupted paced cycle types the whole phrase, sleeps the
      character interval between every two characters, then pads. */
  lemma UninterruptedPacedSleeps(text: string, delay: int, obs: seq<Flags>, elapsed: nat)
    requires delay > 0 && |obs| == |text| && text != []
    requires FirstHalt(obs) == |text|
    ensures PacedCycle(text, delay, obs, elapsed).typed == text
    ensures
      var rem := RemainingSleep(delay, elapsed);
      PacedCycle(text, delay, obs, elapsed).sleeps
        == Repeat(|text| - 1, CharInterval(delay, |text|)) + (if rem > 0 then [rem] else [])
  {
    assert text[..|text|] == text;
    assert GapCount(|text|, |text|) == |text| - 1;
  }

  /** The total sleep of an uninterrupted paced cycle: the inter-character
      sleeps plus the padding. The two bounds on the cycle's length
      (`elapsed` plus the padding reaches the delay and the gaps) restate
      `RemainingSleep`'s contract and the hypothesis on `elapsed`; they are
      collected here as the cycle-length facts. */
  lemma PacedCycleLength(text: string, delay: int, obs: seq<Flags>, elapsed: nat)
    requires delay > 0 && |obs| == |text| && text != []
    requires FirstHalt(obs) == |text|
    requires elapsed >= (|text| - 1) * CharInterval(delay, |text|)
    ensures
      var c := PacedCycle(text, delay, obs, elapsed);
      var gapTime := (|text| - 1) * CharInterval(delay, |text|);
      && elapsed + RemainingSleep(delay, elapsed) >= delay
      && elapsed + RemainingSleep(delay, elapsed) >= gapTime
      && Sum(c.sleeps) == gapTime + RemainingSleep(delay, elapsed)
  {
    var k := |text|;
    var iv := CharInterval(delay, k);
    var rem := RemainingSleep(delay, elapsed);
    UninterruptedPacedSleeps(text, delay, obs, elapsed);
    SumRepeat(k - 1, iv);
    SumAppend(Repeat(k - 1, iv), if rem > 0 then [rem] else []);
    if rem > 0 {
      assert Sum([rem]) == rem;
    }
  }

  /** When the phrase fits the cycle, the inter-character sleeps alone stay
      below the cycle, so the end-of-cycle padding is what fills it. */
  lemma ShortPhraseFitsCycle(delay: int, len: nat)
    requires delay > 0 && 0 < len <= delay
    ensures (len - 1) * CharInterval(delay, len) < delay
  {
    var iv := CharInterval(delay, len);
    assert (len - 1) * iv == len * iv - iv;
  }

  /** When the phrase is longer than the cycle, the one-millisecond floor
      makes the inter-character sleeps alone reach the cycle: there is never
      any padding, and the cycle overruns the configured delay. */
  lemma LongPhraseOverrunsCycle(text: string, delay: int, obs: seq<Flags>, elapsed: nat)
    requires delay > 0 && |obs| == |text| && |text| > delay
    requires FirstHalt(obs) == |text|
    requires elapsed >= (|text| - 1) * CharInterval(delay, |text|)
    ensures CharInterval(delay, |text|) == 1
    ensures (|text| - 1) * CharInterval(delay, |text|) >= delay
    ensures RemainingSleep(delay, elapsed) == 0
    ensures PacedCycle(text, delay, obs, elapsed).sleeps == Repeat(|text| - 1, 1)
  {
    assert GapCount(|text|, |text|) == |text| - 1;
    assert PacedCycle(text, delay, obs, elapsed).sleeps == Repeat(|text| - 1, 1) + [];
  }

  /** Two two-letter phrases and a 100 ms cycle: a character every 50 ms, and
      if typing took 50 ms the cycle is padded by the other 50 ms. */
  lemma TwoPhrasesScenario(f: Flags, index: nat, obs: seq<Flags>)
    requires !f.paused && index < 2 && |obs| == 2
    requires !Halts(obs[0]) && !Halts(obs[1])
    ensures
      var store := ["ab", "cd"];
      var c := Iteration(f, store, 100, index, obs, 50);
      c.branch == Paced && c.typed == store[index] && c.sleeps == [50, 50]
  {
    var store := ["ab", "cd"];
    var text := store[index];
    assert |text| == 2;
    assert FirstHalt(obs) == 2 by {
      assert FirstHalt(obs[1..][1..]) == 0;
    }
    assert text[..2] == text;
    assert Repeat(1, 50) == [50];
  }
}

=== FILE: phrase_store.dfy ===
/**
 The phrase store: the insertion-ordered list of candidate phrases and the
 random pick among them. The random generator is replaced by the index it
 would draw, which the caller supplies.

 A phrase is a `std::string`, a sequence of bytes. Here it is a Dafny
 `string` in which every `char` stands for one byte (one C++ `char`): a
 phrase's length, its per-character interval and its keystrokes all count
 bytes, so a two-byte UTF-8 letter is two `char`s and two keystrokes.
 */
module PhraseStore {

  type Store = seq<string>

  /** The store of a freshly constructed simulator. */
  const Empty: Store := []

  /** `setInputText`: the whole store becomes the one phrase. */
  function SetInputText(store: Store, text: string): (r: Store)
    ensures |r| == 1 && r[0] == text
  {
    [text]
  }

  /** `addInputText`: one phrase appended, every earlier phrase kept in place. */
  function AddInputText(store: Store, text: string): (r: Store)
    ensures |r| == |store| + 1
    ensures r[..|store|] == store
    ensures r[|store|] == text
  {
    store + [text]
  }

  /** `clearInputTexts`: nothing is left. */
  function ClearInputTexts(store: Store): (r: Store)
    ensures |r| == 0
  {
    []
  }

  /** `getRandomInputText`, with `index` the value the uniform distribution
      over `[0, |store| - 1]` drew. An empty store gives the empty phrase. */
  function RandomInputText(store: Store, index: nat): (r: string)
    requires store != [] ==> index < |store|
    ensures store == [] ==> r == ""
    ensures store != [] ==> r in store && r == store[index]
  {
    if store == [] then "" else store[index]
  }

  /** The phrases a pick can return are exactly the phrases in the store. */
  lemma PickSupport(store: Store)
    requires store != []
    ensures forall t :: t in store <==> exists i :: 0 <= i < |store| && RandomInputText(store, i) == t
  {
    forall t | t in store
      ensures exists i :: 0 <= i < |store| && RandomInputText(store, i) == t
    {
      var i :| 0 <= i < |store| && store[i] == t;
      assert RandomInputText(store, i) == t;
    }
  }

  /** After `setInputText`, every pick returns that phrase. */
  lemma PickAfterSet(store: Store, text: string, index: nat)
    requires index < 1
    ensures RandomInputText(SetInputText(store, text), index) == text
  {
  }

  /** After `clearInputTexts`, every pick returns the empty phrase. */
  lemma PickAfterClear(store: Store, index: nat)
    ensures RandomInputText(ClearInputTexts(store), index) == ""
  {
  }

  /** `addInputText` leaves every earlier pick as it was and makes the new
      phrase the pick at the last index. */
  lemma PickAfterAdd(store: Store, text: string, index: nat)
    requires index <= |store|
    ensures index < |store| ==> RandomInputText(AddInputText(store, text), index) == RandomInputText(store, index)
    ensures index == |store| ==> RandomInputText(AddInputText(store, text), index) == text
  {
  }

  /** The loop in `main` that adds every configured phrase, one at a time, to a
      new simulator's empty store: the store ends up holding them in order. */
  method LoadTexts(texts: seq<string>) returns (store: Store)
    ensures store == texts
  {
    store := Empty;
    var i := 0;
    while i < |texts|
      invariant 0 <= i <= |texts|
      invariant store == texts[..i]
    {
      store := AddInputText(store, texts[i]);
      i := i + 1;
    }
  }
}

=== FILE: session.dfy ===
/**
 The simulator as `main` drives it: construction and configuration, `start`,
 the monitor loop until it ends, then `stop` and the end of the process.

 When the Esc key ends the monitor loop it sets `running` to false itself,
 so the later `stop()` calls return before joining anything and both thread
 handles are still joinable when the simulator is destroyed; destroying a
 joinable `std::thread` calls `std::terminate`. `Stop` models `stop()` as
 written; `StopJoined` is the corrected teardown the rest of this module uses.
 */
module Session {
  import opened Activation
  import opened PhraseStore
  import opened Emission
  import Arguments

  /** The whole simulator: phrases, cycle delay in milliseconds, shared state. */
  datatype Simulator = Simulator(store: Store, delay: int, flags: Flags)

  /** A freshly constructed simulator: no phrases, a 100 ms cycle, idle. */
  const Fresh: Simulator := Simulator(Empty, 100, Initial)

  /** `setInputDelay`: the cycle delay is replaced, nothing else changes. */
  function SetInputDelay(sim: Simulator, delay: int): (r: Simulator)
    ensures r.delay == delay && r.store == sim.store && r.flags == sim.flags
  {
    sim.(delay := delay)
  }

  /** `main`'s set-up of a new simulator: every phrase added in order, then
      the delay set; the simulator is still idle. */
  method Configure(texts: seq<string>, delay: int) returns (sim: Simulator)
    ensures sim.store == texts && sim.delay == delay && sim.flags == Initial
    ensures PhaseOf(sim.flags) == Idle
  {
    var store := LoadTexts(texts);
    sim := SetInputDelay(Fresh.(store := store), delay);
  }

  /** `stop()` corrected: the flags change exactly as in `stop()`, and the
      thread handles are joined whether or not the simulator was running. */
  function StopJoined(f: Flags): (r: Flags)
    ensures !r.monitorSpawned && !r.inputSpawned
    ensures f.running ==> r == Stop(f)
    ensures r.(monitorSpawned := f.monitorSpawned, inputSpawned := f.inputSpawned)
         == Stop(f).(monitorSpawned := f.monitorSpawned, inputSpawned := f.inputSpawned)
  {
    Stop(f).(monitorSpawned := false, inputSpawned := false)
  }

  /** How the process ends: a returned status, `std::terminate`, or not yet
      (the monitor loop has not ended after the polls given). */
  datatype Ending = Returned(code: int) | Terminated | StillRunning

  /** After the main loop: `main`'s own `stop()`, `return 0`, then the
      destructor's `stop()` and the destruction of both thread handles. */
  function TeardownAsWritten(f: Flags): (e: Ending)
    ensures f.running ==> e == Returned(0)
    ensures !f.running ==> (e == Terminated <==> f.monitorSpawned || f.inputSpawned)
  {
    var g := Stop(Stop(f));
    if g.monitorSpawned || g.inputSpawned then Terminated else Returned(0)
  }

  /** The same teardown with the corrected `stop()`. */
  function Teardown(f: Flags): (e: Ending)
    ensures e == Returned(0)
  {
    var g := StopJoined(StopJoined(f));
    if g.monitorSpawned || g.inputSpawned then Terminated else Returned(0)
  }

  /** From an armed simulator, every run of the monitor loop either is still
      going or ended through Esc: not running, exiting, and with the monitor
      thread handle still joinable. */
  lemma RunEndsOnlyThroughEsc(f: Flags, polls: seq<Poll>)
    requires MonitorContinues(f) && f.monitorSpawned
    ensures
      var g := RunMonitor(f, polls);
      MonitorContinues(g) || (!g.running && g.shouldExit && g.monitorSpawned)
  {
  }

  /** The program as written: a parse failure returns 1; otherwise start,
      poll until the monitor loop ends, tear down. It never returns 0. */
  function ProgramAsWritten(args: seq<string>, toReal: string -> real, toInt: string -> Arguments.Int32,
                            left: Sample, right: Sample, polls: seq<Poll>): (e: Ending)
    ensures e == Returned(1) <==> !Arguments.WellFormed(args)
    ensures Arguments.WellFormed(args) ==>
      (e == StillRunning <==> MonitorContinues(RunMonitor(Start(Initial, left, right), polls)))
    ensures e != Returned(0)
  {
    match Arguments.MainLaunch(args, toReal, toInt)
    case Exit(code) => Returned(code)
    case Run(_) =>
      var g := RunMonitor(Start(Initial, left, right), polls);
      if MonitorContinues(g) then StillRunning else TeardownAsWritten(g)
  }

  /** The program with the corrected teardown. A parse failure returns 1
      before any simulator exists; otherwise the process returns 0 once the
      monitor loop has ended. */
  function Program(args: seq<string>, toReal: string -> real, toInt: string -> Arguments.Int32,
                   left: Sample, right: Sample, polls: seq<Poll>): (e: Ending)
    ensures e == Returned(1) <==> !Arguments.WellFormed(args)
    ensures Arguments.WellFormed(args) ==>
      (e == Returned(0) <==> !MonitorContinues(RunMonitor(Start(Initial, left, right), polls)))
    ensures Arguments.WellFormed(args) ==>
      (e == StillRunning <==> MonitorContinues(RunMonitor(Start(Initial, left, right), polls)))
    ensures e != Terminated
  {
    match Arguments.MainLaunch(args, toReal, toInt)
    case Exit(code) => Returned(code)
    case Run(_) =>
      var g := RunMonitor(Start(Initial, left, right), polls);
      if MonitorContinues(g) then StillRunning else Teardown(g)
  }

  /** As written, every session whose monitor loop ends (the Esc key is the
      only way it does) ends in `std::terminate`, never in status 0. */
  lemma EndedSessionTerminatesAsWritten(args: seq<string>, toReal: string -> real, toInt: string -> Arguments.Int32,
                                        left: Sample, right: Sample, polls: seq<Poll>)
    requires Arguments.WellFormed(args)
    requires !MonitorContinues(RunMonitor(Start(Initial, left, right), polls))
    ensures ProgramAsWritten(args, toReal, toInt, left, right, polls) == Terminated
    ensures Program(args, toReal, toInt, left, right, polls) == Returned(0)
  {
    RunEndsOnlyThroughEsc(Start(Initial, left, right), polls);
  }

  /** The smallest such session: no arguments, and Esc at the first poll. */
  lemma EscAtFirstPollTerminates()
    ensures ProgramAsWritten([], _ => 0.0, _ => 0, 0, 0, [Poll(true, 0, 0)]) == Terminated
  {
    var f := Start(Initial, 0, 0);
    assert RunMonitor(f, [Poll(true, 0, 0)]) == MonitorStep(f, Poll(true, 0, 0));
  }

  /** Cancellation reaches both loops: after Esc or after `stop()`, neither
      the monitor loop nor the emission loop goes round again, and a
      character loop in progress stops before its next character. */
  lemma CancellationStopsBothLoops(f: Flags, left: Sample, right: Sample)
    ensures !MonitorContinues(MonitorStep(f, Poll(true, left, right)))
    ensures !EmissionContinues(MonitorStep(f, Poll(true, left, right)))
    ensures Halts(MonitorStep(f, Poll(true, left, right)))
    ensures !MonitorContinues(StopJoined(f)) && !EmissionContinues(StopJoined(f)) && Halts(StopJoined(f))
  {
  }

  /** The state invariant holds throughout a session: at construction,
      after `start`, along the monitor loop, and after the teardown. */
  lemma InvariantThroughSession(left: Sample, right: Sample, polls: seq<Poll>)
    ensures Invariant(Initial)
    ensures Invariant(Start(Initial, left, right))
    ensures Invariant(RunMonitor(Start(Initial, left, right), polls))
    ensures Invariant(StopJoined(RunMonitor(Start(Initial, left, right), polls)))
  {
    RunMonitorKeepsInvariant(Start(Initial, left, right), polls);
  }
}
